=== FILE: README.md ===
# InventorySync dashboard script, modelled in Dafny

This project models the client-side logic of the InventorySync dashboard
script (`static/js/script.js`), leaving out the page itself. Five pieces are covered:

- **Log panel** (`appendLog`). A log line is classified as error, warning
  or info by the tags it contains. It is then cut at the first `" - "` into
  a timestamp span and a message span.
- **Sample preview table** (`generateSampleTable`). The column headers
  are the first record's keys without `record_id`. Each label upper-cases
  the key's first character. Each cell shows the record's value, or a dash
  when the value is missing or null. Prices and dates are handed to their
  formatters.
- **Processed-files browser** (the second `loadProcessedFiles`, the one in
  force). It handles the `/local-files` reply. Its case-insensitive search
  runs over file names and grand-total dates. It reports the file total
  and whether a master summary is available.
- **Upload form's submit handler.** It validates the form and drives four
  step indicators (upload, process, db, report) through one `/process`
  request. It shows the results or the error, and re-enables the button.
  The indicators are modelled as a small state machine. After the reset at
  the start of a submission, each change of an indicator is one `Event`.
  Activating is one class change. Completing is two (`active` removed,
  `completed` added), recorded as one event. A change is legal when it
  activates an inactive step, completes an active one, or deactivates an
  active one. Legality alone
  does not keep the steps in order. The model proves that the handler's
  own change sequences keep them in order. The `catch` block deactivates
  whatever step was active.
- **Animated metric counter** (`animateNumber`). It counts up to a value in
  steps of `Math.ceil(value / 20)`, one step per interval tick.

Modules, one per file:

- `Wrappers`: `Option`.
- `Text`: the JavaScript string primitives the script relies on:
  - `trim` with the ECMAScript white-space set;
  - `toLowerCase` and `toUpperCase` on ASCII letters;
  - `indexOf` and `includes`;
  - `split` and `join`.
- `Seqs`: `filter` and subsequences.
- `LogLine`, `SampleTable`, `FileBrowser`, `Upload`, `Counter`: the five
  pieces above.

## Model

| member | source | states |
|---|---|---|
| Text.Trim | static/js/script.js:509 | The trimmed filter is empty exactly when every character of it is ECMAScript white space or a line terminator. |
| Text.IndexOf | static/js/script.js:24 | `indexOf` returns the first position at which the pattern occurs, or nothing when it occurs nowhere. |
| Text.HeadAndRest | static/js/script.js:25 | `split(' - ')[0]` is the text before the first separator. The remaining pieces joined with `' - '` are the text after it. Without a separator, they are the whole line and the empty string. |
| Text.JoinSplit | static/js/script.js:25 | Joining the pieces of a split with the same separator gives back the original line. |
| Text.BlankIgnoresCase | static/js/script.js:509-510 | Lower-casing a filter does not change whether it is blank after trimming. |
| LogLine.Parse | static/js/script.js:24-25 | The severity is error if the line contains `[ERROR]`, else warning if it contains `[WARNING]`, else info. If the line contains a separator, the timestamp is the text before the first separator, and the timestamp, the separator and the message reassemble the line. Otherwise the timestamp is the line and the message is empty. |
| LogLine.FormatClassify | static/js/script.js:24 | A line the script logs itself (`[TAG] time - text`) is classified as the more severe of its own tag and any tag inside the text. |
| LogLine.FormatParse | static/js/script.js:25 | Such a line is split back into the tag plus the time, and exactly the text, whatever separators the text contains. |
| Seqs.Filter | static/js/script.js:511-514 | `filter` keeps, in order, exactly the elements that pass the test, each as often as it occurred. |
| SampleTable.Headers | static/js/script.js:456 | The headers are the first record's keys without `record_id`, in key order and without repeats. |
| SampleTable.Labels | static/js/script.js:458-460 | Each column label is its key with the first character upper-cased and the rest unchanged. |
| SampleTable.CellFor | static/js/script.js:465-470 | The corrected cell. A missing or null value shows as the dash. A present value is what the cell shows. It is formatted as a price exactly when the column is `MRP` and `parseFloat` reads it as a number. It is formatted as a date exactly when the column is `date` and the value is not empty. Otherwise it is shown plain. |
| SampleTable.AsWrittenCell | static/js/script.js:465-469 | As the script is written, a missing or null value under `date` goes to the date formatter as the dash. |
| SampleTable.AsWrittenCellAgrees | static/js/script.js:465-469 | The cell the script builds differs from the intended one exactly under `date` when the value is missing or null. |
| SampleTable.Row | static/js/script.js:464-472 | A row has one corrected cell per header, in header order, each built from the record's value for that header. |
| SampleTable.Body | static/js/script.js:462-474 | The body with the corrected cell has one row per record, each as wide as the header row. Each cell is the corrected cell for the record's value under its header. So it is the dash when the value is missing or null, a price or date exactly under the tests `CellFor` states, and plain otherwise. |
| SampleTable.Generate | static/js/script.js:452-477 | The table with the corrected cell. A value that is not an array, or an empty one, gives the "no preview" text. Otherwise there is a table whose headers cover every key of the first record except `record_id`. Its labels and its body of corrected cells are as above. |
| SampleTable.AsWrittenBody | static/js/script.js:462-474 | The body as the script writes it has one row per record and, in each, the as-written cell for every header. |
| SampleTable.AsWrittenBodyAgrees | static/js/script.js:462-474 | The as-written body equals the corrected body exactly when no record lacks a value under a `date` column. |
| SampleTable.AsWrittenGenerate | static/js/script.js:452-477 | The table as the script writes it gives "no preview" in the same cases as the corrected table. Otherwise it has the same header labels, one row per record, and in each row the as-written cell for every header. |
| SampleTable.AsWrittenGenerateAgrees | static/js/script.js:452-477 | The table the script builds equals the corrected table exactly when no record lacks a value under a `date` column. |
| FileBrowser.FilterFiles | static/js/script.js:509-515 | A filter that is blank after trimming shows every file. Otherwise the files shown are, in order and with their multiplicity, those whose lower-cased name or non-empty lower-cased grand-total date contains the lower-cased filter. |
| FileBrowser.FilterIgnoresCase | static/js/script.js:509-514 | A filter and its lower-cased form show the same files. |
| FileBrowser.Load | static/js/script.js:492-521 | The result is an error exactly when the fetch fails or the reply has an `error`, and it carries that message. Otherwise a blank filter shows every entry of `daily_files.latest_files_info`. Any other filter shows, in order and with their multiplicity, the entries whose name or date contains the lower-cased filter. The total is `daily_files.file_count`, or 0 when it is missing. The master summary is available exactly when its status is `available`. |
| FileBrowser.SummaryIgnoresFilter | static/js/script.js:517-521 | The summary line's total and master status, and whether the listing shows at all, are the same whatever the filter. |
| Upload.Settle | static/js/script.js:150-155 | After the `catch` loop, no indicator is active, and exactly the completed indicators are still completed. |
| Upload.LawfulKeepsCompleted | static/js/script.js:148-155 | No legal change takes a completed step back, including the `catch` block's deactivation. |
| Upload.InSequencePrefix | static/js/script.js:91-126 | Every prefix of the success path's activate-then-complete changes is legal. It never activates or completes a step before the earlier steps are completed. It leaves the steps before it completed and the current step active. |
| Upload.DeactivateSettles | static/js/script.js:150-155 | From indicators that are in order, the `catch` loop's changes are legal and keep them in order. They end with every active step inactive and every other step unchanged. |
| Upload.Attempt | static/js/script.js:91-147 | The `try` block makes exactly the first 1, 3, 4 or 8 changes of the success path. The count depends on whether the fetch is rejected, the body is unreadable, the reply has an `error`, or none of these. Its changes are legal and keep the steps in order. Once the results have been read, they are shown: the result panel, the download and the success status. Otherwise the page is left as it was. The block throws the matching message and sends exactly one request. The effects are listed exactly: the upload notice, the request, and the processing, database and report notices, as far as the block gets. On success they are followed by the server's log lines in order and the success toast. |
| Upload.Recover | static/js/script.js:148-160 | The `catch` block keeps the indicator history legal and in order, and ends at the settled indicators. It shows `Error: <message>` and logs the message as an error. It toasts the message and sends no further request. Nothing else on the page changes, so results already shown stay shown. |
| Upload.Submit | static/js/script.js:59-164 | An incomplete form toasts the validation text and changes nothing else. A complete form sends one request and re-enables the button. After the reset, every change it makes to the indicators is legal and keeps them in order. It leaves no step active, and its first changes follow the success path. A success completes all four steps and shows the results, the download and the success message. Its effects are the handler's notices and request, then the server's log lines in order, then the success toast. A failure shows the error. Its effects are the notices and request made before the failure, then exactly one error log line and one error toast. No earlier effect is a toast or an error line. A failure before the results are read keeps the result panel hidden. A failure after they are shown (a reply without `logs`) leaves the panel, the results and the download in place, and the status carries both the success and the error class. |
| Upload.FailureIndicators | static/js/script.js:148-155 | A rejected fetch leaves no step completed. An unreadable body leaves only upload completed. A reply `error` leaves upload and process completed. A failure after the last step leaves all four completed. |
| Upload.FailureLogReadsBack | static/js/script.js:159 | The `catch` block's log line reads back in the log panel as an error whose message span is, as text, exactly the error message. |
| Counter.Increment | static/js/script.js:206 | The step is the least integer at least a twentieth of the value. |
| Counter.Animate | static/js/script.js:202-213 | The counter shows multiples of the step, each below the value, and finally the value itself. For a positive value it stops after at most 20 ticks, at the first tick whose running total reaches the value. A value of 0 or less shows once. |

## Left out

- Page rendering is left out: the DOM, HTML strings, CSS classes other than
  the step indicators' and the status message's, opacity and transitions.
- The script does not escape values before inserting them with
  `innerHTML`. This covers record values, log messages, file names and
  error texts (script.js lines 25, 471, 500 and 531). Markup inside a
  value is therefore rendered as markup rather than shown as text. The
  model works on the text and does not model this.
- Upload.FailureLogReadsBack: the message span equals the error message as
  text. What the page renders can differ when the message holds markup,
  because the span goes into `innerHTML` unescaped.
- The network is a parameter. How `/process` and `/local-files` settle
  (rejected, unreadable, or a parsed body) is given to the model as a
  reply.
- Timers are ticks. The 500 ms pauses, the 50 ms counter interval and the
  `setTimeout` fade-ins become sequencing of ticks, with no real time.
- The clock is a parameter. The ISO timestamps in logged lines are a
  timestamp argument.
- Third-party libraries are left out: the Toastify toasts are recorded as
  effects, and Plotly, Papa Parse and Bootstrap tooltips are dropped.
- Number and date formatting is left out: `toFixed(2)`, `toLocaleString`
  and `toLocaleDateString` depend on the locale. Cells record the raw
  value and which formatter it goes to.
- Values are modelled as strings. A record's field is text or null, so
  numbers and booleans in the JSON appear by their text. This loses
  JavaScript truthiness. Under `date`, a JSON `0` or `false` is falsy, and
  the script shows it plain (script.js line 468). The model sends `"0"` or
  `"false"` to the date formatter instead.
- Only ASCII letters change case. Non-ASCII case mapping is not modelled.
- A record is given as its properties already in `Object.keys` order. How
  the browser derives that order from the JSON text is not modelled: it
  puts integer-like keys first, in ascending order, and the rest in
  insertion order.
- The first `loadProcessedFiles` in the file is replaced by the second
  declaration and never runs, so it is not modelled.
- Several features are not modelled:
  - the connection check;
  - the theme and `localStorage`;
  - section switching;
  - the rest of the data preview table;
  - the visualisation charts;
  - CSV export;
  - file download, delete and details;
  - clearing the log panel;
  - the debounced search box.
- FileBrowser.Load: does not model the log lines and toasts it emits, or
  the accordion items built for each file and the master summary. It
  also does not model the `TypeError` thrown by an entry without a `file`
  name.
- Upload.Submit: the reset at the start of a submission (script.js lines
  82-85) is modelled as setting every indicator to inactive at once. It is
  not part of the event history. On a resubmission it takes completed
  steps back to inactive, which is not a legal change.
- Upload.Attempt: the messages thrown for a reply without `results` or
  without `logs` use the V8 wording for a missing field ("Cannot read
  properties of undefined"). A JSON `null` in either field makes V8 say
  "of null" instead, because the model does not tell null from absent
  there. Other JavaScript engines word these errors differently.
- SampleTable.Lookup: reads only a record's own properties. The script's
  `row[h]` (script.js line 465) also finds inherited `Object.prototype`
  members, such as `constructor`, `toString`, `valueOf` and `__proto__`.
  Suppose the first record has a `constructor` key and a later one does
  not. The script then shows the inherited function's text in that cell,
  where the model shows the dash.
- Upload.Submit: assumes a results block has every field. A missing count
  would make `toLocaleString` throw after the result panel has been
  partly filled.
- Counter.Animate: takes an integer value. `NaN` and fractional values are
  not modelled.
- SampleTable.Body: states the body with the corrected cell. The body as
  written is `SampleTable.AsWrittenBody`, and the two are related by
  `SampleTable.AsWrittenBodyAgrees`.
- SampleTable.Generate: states the table with the corrected cell. The
  table as written is `SampleTable.AsWrittenGenerate`, and the two are
  related by `SampleTable.AsWrittenGenerateAgrees`.
- Nothing of the previous listing survives a failed load. The script
  clears the summary and the table before fetching (script.js lines
  487-488), so a failure leaves only the error.

## Findings

| source | as written | input that shows it | evidently intended | confidence | as-written member | corrected member |
|---|---|---|---|---|---|---|
| static/js/script.js:465-469 | A missing or null value is replaced by `'-'` before the formatting tests. The dash is truthy, so under the `date` header it goes to `new Date('-').toLocaleDateString()`. | A sample record whose `date` field is null or absent, shown under the `date` column | The dash is shown as is, as in every other column | medium, not executed | SampleTable.AsWrittenCell | SampleTable.CellFor |

=== FILE: counter.dfy ===
/**
 * The animated metric counter (`animateNumber` in `loadDataPreview`),
 * with the interval's ticks taken one after another and no real time.
 */
module Counter {

  /** `Math.ceil(value / 20)` for an integer `value`. */
  function Increment(value: int): (step: int)
    ensures 20 * step >= value && 20 * (step - 1) < value
  {
    -((-value) / 20)
  }

  lemma MulStrict(a: int, b: int, c: int)
    requires c > 0 && a * c < b * c
    ensures a < b
  {
  }

  /**
   * The numbers the counter shows, one per tick: the running total
   * after each increment, and on the last tick the value itself.
   */
  method Animate(value: int) returns (frames: seq<int>)
    ensures |frames| >= 1 && frames[|frames| - 1] == value
    ensures value <= 0 ==> |frames| == 1
    ensures value > 0 ==> |frames| <= 20
    ensures forall k :: 0 <= k < |frames| - 1 ==> frames[k] == (k + 1) * Increment(value) && frames[k] < value
    ensures value > 0 ==> (|frames| - 1) * Increment(value) < value <= |frames| * Increment(value)
  {
    var step := Increment(value);
    var start := step;
    frames := [];
    while start < value
      invariant value > 0 ==> step >= 1
      invariant start == (|frames| + 1) * step
      invariant forall k :: 0 <= k < |frames| ==> frames[k] == (k + 1) * step && frames[k] < value
      invariant value > 0 ==> |frames| < 20
      invariant |frames| > 0 ==> |frames| * step < value
      decreases value - start
    {
      frames := frames + [start];
      start := start + step;
      if start < value {
        MulStrict(|frames| + 1, 20, step);
      }
    }
    frames := frames + [value];
  }
}

=== FILE: file_browser.dfy ===
/**
 * The processed-files browser (the second `loadProcessedFiles`): the
 * daily-file listing fetched from `/local-files`, narrowed by a
 * case-insensitive search over file names and grand-total dates.
 */
module FileBrowser {
  import opened Wrappers
  import opened Text
  import opened Seqs
  import SampleTable

  /** One entry of `daily_files.latest_files_info`. */
  datatype FileInfo = FileInfo(
    file: string,
    rows: int,
    grandTotalDate: Option<string>,
    sample: Option<seq<SampleTable.Record>>)

  /** `daily_files` of the listing; absent fields are `None`. */
  datatype DailyFiles = DailyFiles(fileCount: Option<int>, latestFilesInfo: Option<seq<FileInfo>>)

  /** The JSON body of `/local-files`; `error` is the empty string when absent. */
  datatype Listing = Listing(error: string, dailyFiles: Option<DailyFiles>, masterStatus: Option<string>)

  /** What the fetch produced: a rejected request or unreadable body, or a listing. */
  datatype Reply = Unreachable(message: string) | Received(listing: Listing)

  /**
   * What the browser shows: an error, or the files displayed with the
   * total the server reported and whether the master summary is available.
   */
  datatype View = Failed(message: string) | Listed(shown: seq<FileInfo>, total: int, masterAvailable: bool)

  const MasterAvailable := "available"

  /**
   * The search test for one entry against the lower-cased filter: its
   * lower-cased file name contains it, or it has a non-empty grand-total
   * date whose lower-cased form contains it.
   */
  predicate Matches(f: FileInfo, needle: string) {
    || Includes(ToLower(f.file), needle)
    || (f.grandTotalDate.Some? && f.grandTotalDate.value != ""
        && Includes(ToLower(f.grandTotalDate.value), needle))
  }

  /**
   * The filtering step: a filter that is empty after trimming leaves the
   * list alone; otherwise the untrimmed filter, lower-cased, selects the
   * matching entries in their original order.
   */
  function FilterFiles(files: seq<FileInfo>, filter: string): (shown: seq<FileInfo>)
    ensures (forall i :: 0 <= i < |filter| ==> IsJsSpace(filter[i])) ==> shown == files
    ensures (exists i :: 0 <= i < |filter| && !IsJsSpace(filter[i])) ==>
      && IsSubsequence(shown, files)
      && (forall f :: f in shown <==> f in files && Matches(f, ToLower(filter)))
      && (forall f :: multiset(shown)[f] == if Matches(f, ToLower(filter)) then multiset(files)[f] else 0)
  {
    if Trim(filter) == "" then files
    else Filter(files, Matching(ToLower(filter)))
  }

  /** The search test as the callback handed to `filter`. */
  function Matching(needle: string): FileInfo -> bool {
    f => Matches(f, needle)
  }

  /** The entries a listing carries: `daily_files.latest_files_info`, or none when either is absent. */
  function Entries(listing: Listing): seq<FileInfo> {
    if listing.dailyFiles.Some? then listing.dailyFiles.value.latestFilesInfo.GetOr([]) else []
  }

  /**
   * `loadProcessedFiles(filter)` once the fetch has settled: an error
   * unless the reply is a listing without `error`; then the entries the
   * filter selects, in order, with the counted total and the master status.
   */
  function Load(reply: Reply, filter: string): (v: View)
    ensures v.Failed? <==> reply.Unreachable? || reply.listing.error != ""
    ensures reply.Unreachable? ==> v.message == reply.message
    ensures reply.Received? && reply.listing.error != "" ==> v.message == reply.listing.error
    ensures v.Listed? && (forall i :: 0 <= i < |filter| ==> IsJsSpace(filter[i])) ==>
      v.shown == Entries(reply.listing)
    ensures v.Listed? && (exists i :: 0 <= i < |filter| && !IsJsSpace(filter[i])) ==>
      && IsSubsequence(v.shown, Entries(reply.listing))
      && forall f :: multiset(v.shown)[f] ==
           if Matches(f, ToLower(filter)) then multiset(Entries(reply.listing))[f] else 0
    ensures v.Listed? ==>
      var daily := reply.listing.dailyFiles;
      && (daily.Some? && daily.value.fileCount.Some? ==> v.total == daily.value.fileCount.value)
      && (daily.None? || daily.value.fileCount.None? ==> v.total == 0)
      && (v.masterAvailable <==> reply.listing.masterStatus == Some(MasterAvailable))
  {
    match reply
    case Unreachable(m) => Failed(m)
    case Received(listing) =>
      if listing.error != "" then Failed(listing.error)
      else
        var total := if listing.dailyFiles.Some? then listing.dailyFiles.value.fileCount.GetOr(0) else 0;
        Listed(FilterFiles(Entries(listing), filter), total, listing.masterStatus == Some(MasterAvailable))
  }

  /**
   * The summary line's figures do not depend on the search: whether the
   * listing shows, the total and the master status are the same for any
   * two filters.
   */
  lemma SummaryIgnoresFilter(reply: Reply, filter: string, other: string)
    ensures Load(reply, filter).Listed? <==> Load(reply, other).Listed?
    ensures Load(reply, filter).Listed? ==>
      && Load(reply, filter).total == Load(reply, other).total
      && Load(reply, filter).masterAvailable == Load(reply, other).masterAvailable
  {
  }

  /**
   * The search is case-insensitive in the filter: typing it in upper case
   * shows the same files as typing it in lower case.
   */
  lemma FilterIgnoresCase(files: seq<FileInfo>, filter: string)
    ensures FilterFiles(files, ToLower(filter)) == FilterFiles(files, filter)
  {
    BlankIgnoresCase(filter);
    LowerTwice(filter);
  }
}

=== FILE: log_line.dfy ===
/**
 * How the log panel reads a log line (`appendLog`): a severity sniffed
 * from tag substrings, and a split on the first `" - "` into a timestamp
 * part and a message part.
 */
module LogLine {
  import opened Wrappers
  import opened Text

  datatype Severity = Info | Warning | Error

  const Separator := " - "
  const ErrorTag := "[ERROR]"
  const WarningTag := "[WARNING]"
  const InfoTag := "[INFO]"

  /** The reading of one line: the two spans and the CSS class of the message span. */
  datatype Entry = Entry(timestamp: string, severity: Severity, message: string)

  /** Precedence of severities: error over warning over info. */
  function Rank(s: Severity): nat {
    match s
    case Info => 0
    case Warning => 1
    case Error => 2
  }

  function Max(s: Severity, t: Severity): (m: Severity)
    ensures Rank(m) >= Rank(s) && Rank(m) >= Rank(t)
    ensures m == s || m == t
  {
    if Rank(s) >= Rank(t) then s else t
  }

  /** The class `appendLog` gives a line: error takes precedence over warning, then info. */
  function Classify(line: string): Severity {
    if Includes(line, ErrorTag) then Error
    else if Includes(line, WarningTag) then Warning
    else Info
  }

  /**
   * `appendLog`'s reading of `line`: the timestamp span is `split(' - ')[0]`,
   * the message span is the remaining pieces joined back with `' - '`.
   */
  function Parse(line: string): (e: Entry)
    ensures e.severity == Classify(line)
    ensures IndexOf(line, Separator).Some? ==>
      && e.timestamp == line[..IndexOf(line, Separator).value]
      && e.timestamp + Separator + e.message == line
      && !Includes(e.timestamp, Separator)
    ensures IndexOf(line, Separator).None? ==> e.timestamp == line && e.message == ""
  {
    var parts := Split(line, Separator);
    HeadAndRest(line, Separator);
    if IndexOf(line, Separator).Some? then
      BeforeFirstExcludes(line, Separator);
      AroundOccurrence(line, Separator, IndexOf(line, Separator).value);
      Entry(parts[0], Classify(line), Join(parts[1..], Separator))
    else
      Entry(parts[0], Classify(line), Join(parts[1..], Separator))
  }

  /** The tag the script writes in front of the lines it logs itself. */
  function Tag(s: Severity): string {
    match s
    case Info => InfoTag
    case Warning => WarningTag
    case Error => ErrorTag
  }

  /** A line the script logs itself: `` `[TAG] ${timestamp} - ${text}` ``. */
  function Format(s: Severity, timestamp: string, text: string): string {
    Tag(s) + " " + timestamp + Separator + text
  }

  lemma TagsContainTheirTags(s: Severity)
    ensures Includes(Tag(s), ErrorTag) <==> s == Error
    ensures Includes(Tag(s), WarningTag) <==> s == Warning
  {
    match s
    case Info =>
    case Warning =>
      assert IndexOf(WarningTag, WarningTag) == Some(0);
      forall j | 0 <= j <= |WarningTag| - |ErrorTag|
        ensures !OccursAt(WarningTag, ErrorTag, j)
      {
        var window := WarningTag[j..j + |ErrorTag|];
        assert window[0] != ErrorTag[0] || window[1] != ErrorTag[1];
      }
    case Error =>
      assert IndexOf(ErrorTag, ErrorTag) == Some(0);
  }

  /**
   * A line the script formats itself is classed by the higher of its own
   * tag and any tag inside its text, provided the timestamp holds no tag.
   */
  lemma FormatClassify(s: Severity, timestamp: string, text: string)
    requires !Includes(timestamp, ErrorTag) && !Includes(timestamp, WarningTag)
    ensures Classify(Format(s, timestamp, text)) == Max(s, Classify(text))
  {
    TagsContainTheirTags(s);
    FormatIncludes(s, timestamp, text, ErrorTag);
    FormatIncludes(s, timestamp, text, WarningTag);
    ClassifyByTags(Format(s, timestamp, text), s, text);
  }

  /** A line that holds a tag exactly when severity `s` or `text` holds it is classed by the higher of the two. */
  lemma ClassifyByTags(line: string, s: Severity, text: string)
    requires Includes(line, ErrorTag) <==> s == Error || Includes(text, ErrorTag)
    requires Includes(line, WarningTag) <==> s == Warning || Includes(text, WarningTag)
    ensures Classify(line) == Max(s, Classify(text))
  {
  }

  /** A tag occurs in a formatted line exactly when it occurs in one of the three parts. */
  lemma FormatIncludes(s: Severity, timestamp: string, text: string, pat: string)
    requires ' ' !in pat && '-' !in pat && |pat| > 0 && !Includes(timestamp, pat)
    ensures Includes(Format(s, timestamp, text), pat) <==> Includes(Tag(s), pat) || Includes(text, pat)
  {
    var line := Format(s, timestamp, text);
    assert line == Tag(s) + [' '] + (timestamp + [' '] + ("-" + [' '] + text));
    IncludesAcross(Tag(s), ' ', timestamp + [' '] + ("-" + [' '] + text), pat);
    IncludesAcross(timestamp, ' ', "-" + [' '] + text, pat);
    IncludesAcross("-", ' ', text, pat);
    if Includes("-", pat) {
      OccurrenceStartsWith("-", pat, IndexOf("-", pat).value);
    }
  }

  /** No tag has a space in it. */
  lemma TagHasNoSpace(s: Severity)
    ensures forall k :: 0 <= k < |Tag(s)| ==> Tag(s)[k] != ' '
  {
  }

  /** In a formatted line no separator starts before the one the script wrote. */
  lemma NoEarlySeparator(tag: string, mid: string, rest: string, j: int)
    requires forall k :: 0 <= k < |tag| ==> tag[k] != ' '
    requires forall k :: !OccursAt(mid, Separator, k)
    requires 0 <= j < |tag| + |mid| - 2
    ensures !OccursAt(tag + mid + rest, Separator, j)
  {
    var line := tag + mid + rest;
    if OccursAt(line, Separator, j) {
      // a separator starting inside the tag would need a space there
      OccurrenceStartsWith(line, Separator, j);
      if j >= |tag| {
        assert line == tag + (mid + rest);
        OccursInParts(tag, mid + rest, Separator, j);
        OccursInParts(mid, rest, Separator, j - |tag|);
      }
    }
  }

  /**
   * Reading back a line the script formats itself recovers its parts:
   * the timestamp span is the tag and the timestamp, the message span is
   * exactly the text, provided the timestamp cannot form a separator with
   * the spaces around it.
   */
  lemma FormatParse(s: Severity, timestamp: string, text: string)
    requires !Includes(" " + timestamp + " -", Separator)
    ensures Parse(Format(s, timestamp, text)).timestamp == Tag(s) + " " + timestamp
    ensures Parse(Format(s, timestamp, text)).message == text
  {
    var line := Format(s, timestamp, text);
    var head := Tag(s) + " " + timestamp;
    FormatSeparatorAt(s, timestamp, text);
    HeadAndRest(line, Separator);
    assert line == head + Separator + text;
    assert line[..|head|] == head;
    assert line[|head| + 3..] == text;
  }

  /** The first separator of a formatted line is the one the script wrote. */
  lemma FormatSeparatorAt(s: Severity, timestamp: string, text: string)
    requires !Includes(" " + timestamp + " -", Separator)
    ensures IndexOf(Format(s, timestamp, text), Separator) == Some(|Tag(s)| + 1 + |timestamp|)
  {
    var tag := Tag(s);
    var line := Format(s, timestamp, text);
    var p := |tag| + 1 + |timestamp|;
    var mid := " " + timestamp + " -";
    assert line == tag + mid + (" " + text);
    assert OccursAt(line, Separator, p) by {
      assert line[p..p + 3] == Separator;
    }
    TagHasNoSpace(s);
    forall j | 0 <= j < p
      ensures !OccursAt(line, Separator, j)
    {
      NoEarlySeparator(tag, mid, " " + text, j);
    }
    FirstOccurrence(line, Separator, p);
  }
}

=== FILE: sample_table.dfy ===
/**
 * The preview table of a processed file (`generateSampleTable`): the
 * header row is derived from the first record's keys, and every record
 * gives one cell per header.
 */
module SampleTable {
  import opened Wrappers
  import opened Text
  import opened Seqs

  /**
   * One property of a record: its key and its value, `None` being JSON
   * `null`. A value is held as the text the page would show for it.
   */
  type Field = (string, Option<string>)

  predicate DistinctKeys(fields: seq<Field>) {
    forall i, j :: 0 <= i < j < |fields| ==> fields[i].0 != fields[j].0
  }

  /** A record as a JavaScript object: its properties in `Object.keys` order, no key twice. */
  type Record = fields: seq<Field> | DistinctKeys(fields) witness []

  /**
   * A rendered cell: plain text, a price shown with two decimals
   * (`parseFloat(v).toFixed(2)`), or a date in the browser's locale
   * (`new Date(v).toLocaleDateString()`). The last two keep the raw value;
   * the formatting itself belongs to the browser.
   */
  datatype Cell = Plain(text: string) | Price(raw: string) | LocalDate(raw: string)

  /** The value a cell is drawn from. */
  function Source(c: Cell): string {
    match c
    case Plain(t) => t
    case Price(v) => v
    case LocalDate(v) => v
  }

  /** The preview: the "no preview data" message, or a header row and a body. */
  datatype Table = NoPreview | Grid(labels: seq<string>, body: seq<seq<Cell>>)

  const Dash := "-"
  const IdKey := "record_id"
  const PriceKey := "MRP"
  const DateKey := "date"

  function Keys(r: Record): (ks: seq<string>)
    ensures |ks| == |r| && forall i :: 0 <= i < |r| ==> ks[i] == r[i].0
  {
    if |r| == 0 then [] else [r[0].0] + Keys(r[1..])
  }

  /**
   * `row[key]`: `None` when the record has no such key, `Some(None)` when
   * its value is `null`, `Some(Some(v))` when it holds `v`.
   */
  function Lookup(r: seq<Field>, key: string): (v: Option<Option<string>>)
    ensures v.None? <==> forall i :: 0 <= i < |r| ==> r[i].0 != key
    ensures v.Some? ==> (key, v.value) in r
  {
    if |r| == 0 then None
    else if r[0].0 == key then Some(r[0].1)
    else Lookup(r[1..], key)
  }

  /** The keys that become columns: all of the first record's keys except `record_id`. */
  function Headers(first: Record): (hs: seq<string>)
    ensures IsSubsequence(hs, Keys(first))
    ensures forall h :: h in hs <==> h in Keys(first) && h != IdKey
    ensures Distinct(hs)
  {
    var hs := Filter(Keys(first), h => h != IdKey);
    forall h
      ensures multiset(hs)[h] <= 1
    {
      KeysAreDistinct(first, h);
    }
    DistinctFromCounts(hs);
    hs
  }

  /** A key appears at most once among a record's keys. */
  lemma {:induction false} KeysAreDistinct(r: Record, key: string)
    ensures multiset(Keys(r))[key] <= 1
  {
    if |r| > 0 {
      var rest: Record := r[1..];
      assert Keys(r) == [r[0].0] + Keys(rest);
      KeysAreDistinct(rest, key);
      if r[0].0 == key {
        assert key !in Keys(rest);
      }
    }
  }

  /** A column label: the key with its first character upper-cased. */
  function Label(h: string): string
  {
    if |h| == 0 then "" else [UpperChar(h[0])] + h[1..]
  }

  /** Each label is its key with the first character upper-cased and the rest unchanged. */
  predicate LabelsFit(hs: seq<string>, ls: seq<string>) {
    && |ls| == |hs|
    && forall i :: 0 <= i < |hs| ==>
         |ls[i]| == |hs[i]| && (|hs[i]| > 0 ==> ls[i][0] == UpperChar(hs[i][0]) && ls[i][1..] == hs[i][1..])
  }

  /** The header row. */
  function Labels(hs: seq<string>): (ls: seq<string>)
    ensures LabelsFit(hs, ls)
  {
    seq(|hs|, i requires 0 <= i < |hs| => Label(hs[i]))
  }

  /** What `parseFloat` needs to return a number rather than `NaN`. */
  predicate ParsesAsNumber(v: string) {
    var t := TrimStart(v);
    var u := if |t| > 0 && (t[0] == '+' || t[0] == '-') then t[1..] else t;
    || (|u| > 0 && '0' <= u[0] <= '9')
    || (|u| > 1 && u[0] == '.' && '0' <= u[1] <= '9')
    || (|u| >= 8 && u[..8] == "Infinity")
  }

  /** The formatting the script applies to a value shown under header `h`. */
  function Format(h: string, v: string): (c: Cell)
    ensures Source(c) == v
    ensures c.Price? <==> h == PriceKey && ParsesAsNumber(v)
    ensures c.LocalDate? <==> h == DateKey && v != ""
  {
    if h == PriceKey && ParsesAsNumber(v) then Price(v)
    else if h == DateKey && v != "" then LocalDate(v)
    else Plain(v)
  }

  /**
   * The cell for header `h` as the script writes it: a missing or null
   * value is replaced by the dash before formatting, so under `date` the
   * dash itself is handed to the date formatter.
   */
  function AsWrittenCell(h: string, v: Option<Option<string>>): (c: Cell)
    ensures h == DateKey && (v.None? || v.value.None?) ==> c == LocalDate(Dash)
  {
    var value := if v.Some? && v.value.Some? then v.value.value else Dash;
    Format(h, value)
  }

  /** The cell for header `h` with a missing or null value always shown as the dash. */
  function CellFor(h: string, v: Option<Option<string>>): (c: Cell)
    ensures (v.None? || v.value.None?) ==> c == Plain(Dash)
    ensures v.Some? && v.value.Some? ==>
      && Source(c) == v.value.value
      && (c.Price? <==> h == PriceKey && ParsesAsNumber(v.value.value))
      && (c.LocalDate? <==> h == DateKey && v.value.value != "")
  {
    if v.Some? && v.value.Some? then Format(h, v.value.value) else Plain(Dash)
  }

  /** The as-written cell differs from the intended one only for a missing date. */
  lemma AsWrittenCellAgrees(h: string, v: Option<Option<string>>)
    ensures AsWrittenCell(h, v) == CellFor(h, v) <==> !(h == DateKey && (v.None? || v.value.None?))
  {
    if v.None? || v.value.None? {
      DashIsNotNumber();
      assert AsWrittenCell(h, v) == Format(h, Dash);
    }
  }

  /** `parseFloat('-')` is `NaN`. */
  lemma DashIsNotNumber()
    ensures !ParsesAsNumber(Dash)
  {
    assert !IsJsSpace(Dash[0]);
    assert TrimStart(Dash) == Dash;
    assert Dash[1..] == "";
  }

  /** One body row: a cell per header, in header order. */
  function Row(headers: seq<string>, r: Record): (cells: seq<Cell>)
    ensures |cells| == |headers|
    ensures forall i :: 0 <= i < |headers| ==> cells[i] == CellFor(headers[i], Lookup(r, headers[i]))
  {
    if |headers| == 0 then [] else [CellFor(headers[0], Lookup(r, headers[0]))] + Row(headers[1..], r)
  }

  /**
   * One row per record and one cell per header; the cell is the corrected
   * cell for the record's value under that header (the dash when missing
   * or null, formatted as `CellFor` states otherwise).
   */
  predicate BodyFits(hs: seq<string>, rows: seq<Record>, body: seq<seq<Cell>>) {
    && |body| == |rows|
    && (forall r :: 0 <= r < |rows| ==> |body[r]| == |hs|)
    && (forall r, i :: 0 <= r < |rows| && 0 <= i < |hs| ==>
          body[r][i] == CellFor(hs[i], Lookup(rows[r], hs[i])))
  }

  /** The body. */
  function Body(hs: seq<string>, rows: seq<Record>): (body: seq<seq<Cell>>)
    ensures BodyFits(hs, rows, body)
  {
    seq(|rows|, r requires 0 <= r < |rows| => Row(hs, rows[r]))
  }

  /** `generateSampleTable(rows)`, where `None` stands for a value that is not an array. */
  function Generate(rows: Option<seq<Record>>): (t: Table)
    ensures t.NoPreview? <==> rows.None? || |rows.value| == 0
    ensures t.Grid? ==>
      var hs := Headers(rows.value[0]);
      && IdKey !in hs
      && (forall k :: k in Keys(rows.value[0]) && k != IdKey ==> k in hs)
      && LabelsFit(hs, t.labels)
      && BodyFits(hs, rows.value, t.body)
  {
    if rows.None? || |rows.value| == 0 then NoPreview
    else
      var hs := Headers(rows.value[0]);
      Grid(Labels(hs), Body(hs, rows.value))
  }

  /** The body as the script writes it, with the as-written cell. */
  function AsWrittenBody(hs: seq<string>, rows: seq<Record>): (body: seq<seq<Cell>>)
    ensures |body| == |rows|
    ensures forall r :: 0 <= r < |rows| ==>
      |body[r]| == |hs| && forall i :: 0 <= i < |hs| ==> body[r][i] == AsWrittenCell(hs[i], Lookup(rows[r], hs[i]))
  {
    seq(|rows|, r requires 0 <= r < |rows| =>
      seq(|hs|, i requires 0 <= i < |hs| => AsWrittenCell(hs[i], Lookup(rows[r], hs[i]))))
  }

  /** `generateSampleTable(rows)` exactly as written, missing dates included. */
  function AsWrittenGenerate(rows: Option<seq<Record>>): (t: Table)
    ensures t.NoPreview? <==> rows.None? || |rows.value| == 0
    ensures t.Grid? ==>
      var hs := Headers(rows.value[0]);
      && t.labels == Labels(hs)
      && |t.body| == |rows.value|
      && forall r :: 0 <= r < |rows.value| ==>
           |t.body[r]| == |hs| && forall i :: 0 <= i < |hs| ==> t.body[r][i] == AsWrittenCell(hs[i], Lookup(rows.value[r], hs[i]))
  {
    if rows.None? || |rows.value| == 0 then NoPreview
    else
      var hs := Headers(rows.value[0]);
      Grid(Labels(hs), AsWrittenBody(hs, rows.value))
  }

  /** Some record has no `date` value (absent or null) while `date` is a column. */
  predicate MissingDate(hs: seq<string>, rows: seq<Record>) {
    DateKey in hs && exists r :: 0 <= r < |rows| && (Lookup(rows[r], DateKey).None? || Lookup(rows[r], DateKey).value.None?)
  }

  /**
   * The table the script builds is the intended one exactly when no record
   * lacks a value under a `date` column.
   */
  lemma AsWrittenGenerateAgrees(rows: Option<seq<Record>>)
    ensures AsWrittenGenerate(rows) == Generate(rows) <==>
      !(rows.Some? && |rows.value| > 0 && MissingDate(Headers(rows.value[0]), rows.value))
  {
    if rows.Some? && |rows.value| > 0 {
      var hs := Headers(rows.value[0]);
      AsWrittenBodyAgrees(hs, rows.value);
    }
  }

  /** The as-written body equals the intended body exactly when no date is missing. */
  lemma AsWrittenBodyAgrees(hs: seq<string>, rows: seq<Record>)
    ensures AsWrittenBody(hs, rows) == Body(hs, rows) <==> !MissingDate(hs, rows)
  {
    var written := AsWrittenBody(hs, rows);
    var body := Body(hs, rows);
    if MissingDate(hs, rows) {
      var r :| 0 <= r < |rows| && (Lookup(rows[r], DateKey).None? || Lookup(rows[r], DateKey).value.None?);
      var i :| 0 <= i < |hs| && hs[i] == DateKey;
      AsWrittenCellAgrees(hs[i], Lookup(rows[r], hs[i]));
      assert written[r][i] != body[r][i];
    } else {
      forall r | 0 <= r < |rows|
        ensures written[r] == body[r]
      {
        forall i | 0 <= i < |hs|
          ensures written[r][i] == body[r][i]
        {
          AsWrittenCellAgrees(hs[i], Lookup(rows[r], hs[i]));
        }
      }
    }
  }
}

=== FILE: seqs.dfy ===
/** Order-preserving selection from a sequence (the script's `Array.filter`). */
module Seqs {

  /** `a` is `b` with some elements left out and the rest kept in order. */
  predicate IsSubsequence<T(==)>(a: seq<T>, b: seq<T>)
    decreases |b|
  {
    || |a| == 0
    || (|b| > 0 && ((a[0] == b[0] && IsSubsequence(a[1..], b[1..])) || IsSubsequence(a, b[1..])))
  }

  /** `xs.filter(keep)`. */
  function Filter<T(==,!new)>(xs: seq<T>, keep: T -> bool): (r: seq<T>)
    ensures IsSubsequence(r, xs)
    ensures forall i :: 0 <= i < |r| ==> keep(r[i])
    ensures forall x :: x in r <==> x in xs && keep(x)
    ensures forall x :: multiset(r)[x] == if keep(x) then multiset(xs)[x] else 0
  {
    if |xs| == 0 then []
    else
      var rest := Filter(xs[1..], keep);
      assert xs == [xs[0]] + xs[1..];
      if keep(xs[0]) then
        assert ([xs[0]] + rest)[1..] == rest;
        [xs[0]] + rest
      else rest
  }

  /** No element occurs twice. */
  predicate Distinct<T(==)>(s: seq<T>) {
    forall i, j :: 0 <= i < j < |s| ==> s[i] != s[j]
  }

  /** A sequence in which every element occurs at most once has distinct positions. */
  lemma DistinctFromCounts<T(!new)>(s: seq<T>)
    requires forall x :: multiset(s)[x] <= 1
    ensures Distinct(s)
  {
    forall i, j | 0 <= i < j < |s|
      ensures s[i] != s[j]
    {
      CountTwo(s, i, j);
    }
  }

  /** Two equal elements at different positions make their count at least two. */
  lemma CountTwo<T>(s: seq<T>, i: int, j: int)
    requires 0 <= i < j < |s|
    ensures s[i] == s[j] ==> multiset(s)[s[i]] >= 2
  {
    var x := s[i];
    assert s == s[..i] + [s[i]] + s[i + 1..j] + [s[j]] + s[j + 1..];
    assert multiset(s)[x] ==
      multiset(s[..i])[x] + multiset([s[i]])[x] + multiset(s[i + 1..j])[x]
      + multiset([s[j]])[x] + multiset(s[j + 1..])[x];
  }
}

=== FILE: text.dfy ===
/**
 * The JavaScript string primitives the dashboard script relies on:
 * `trim`, `toLowerCase`/`toUpperCase` (ASCII letters only), `indexOf`,
 * `includes`, `split` with a non-empty string separator, and `Array.join`.
 */
module Text {
  import opened Wrappers

  /** WhiteSpace and LineTerminator of ECMA-262: the characters `trim` removes. */
  predicate IsJsSpace(c: char) {
    || c == '\t' || c == '\n' || c == '\U{000B}' || c == '\U{000C}' || c == '\r'
    || c == ' ' || c == '\U{00A0}' || c == '\U{1680}'
    || ('\U{2000}' <= c <= '\U{200A}')
    || c == '\U{2028}' || c == '\U{2029}' || c == '\U{202F}' || c == '\U{205F}'
    || c == '\U{3000}' || c == '\U{FEFF}'
  }

  /** `s` with its leading white space removed. */
  function TrimStart(s: string): (r: string)
    ensures |r| <= |s| && r == s[|s| - |r|..]
    ensures forall i :: 0 <= i < |s| - |r| ==> IsJsSpace(s[i])
    ensures |r| > 0 ==> !IsJsSpace(r[0])
  {
    if |s| > 0 && IsJsSpace(s[0]) then TrimStart(s[1..]) else s
  }

  /** `s` with its trailing white space removed. */
  function TrimEnd(s: string): (r: string)
    ensures |r| <= |s| && r == s[..|r|]
    ensures forall i :: |r| <= i < |s| ==> IsJsSpace(s[i])
    ensures |r| > 0 ==> !IsJsSpace(r[|r| - 1])
  {
    if |s| > 0 && IsJsSpace(s[|s| - 1]) then TrimEnd(s[..|s| - 1]) else s
  }

  /** `s.trim()`: empty exactly when every character of `s` is white space. */
  function Trim(s: string): (r: string)
    ensures r == "" <==> forall i :: 0 <= i < |s| ==> IsJsSpace(s[i])
    ensures |r| > 0 ==> !IsJsSpace(r[0]) && !IsJsSpace(r[|r| - 1])
  {
    var t := TrimStart(s);
    assert forall i :: |s| - |t| <= i < |s| ==> s[i] == t[i - (|s| - |t|)];
    TrimEnd(t)
  }

  function LowerChar(c: char): char {
    if 'A' <= c <= 'Z' then (c as int + 32) as char else c
  }

  function UpperChar(c: char): char {
    if 'a' <= c <= 'z' then (c as int - 32) as char else c
  }

  /** `s.toLowerCase()` over ASCII letters. */
  function ToLower(s: string): (r: string)
    ensures |r| == |s|
    ensures forall i :: 0 <= i < |s| ==> r[i] == LowerChar(s[i])
  {
    if |s| == 0 then "" else [LowerChar(s[0])] + ToLower(s[1..])
  }

  /** True when `pat` occurs in `s` starting at index `i`. */
  predicate OccursAt(s: string, pat: string, i: int) {
    0 <= i && i + |pat| <= |s| && s[i..i + |pat|] == pat
  }

  /**
   * `s.indexOf(pat)`: the first index at which `pat` occurs, or `None`
   * where the script would see -1.
   */
  function IndexOf(s: string, pat: string): (r: Option<nat>)
    ensures r.Some? ==> OccursAt(s, pat, r.value)
    ensures r.Some? ==> forall j :: 0 <= j < r.value ==> !OccursAt(s, pat, j)
    ensures r.None? ==> forall j :: !OccursAt(s, pat, j)
    decreases |s|
  {
    if |s| < |pat| then None
    else if s[..|pat|] == pat then Some(0)
    else
      var rest := IndexOf(s[1..], pat);
      forall j | 1 <= j
        ensures OccursAt(s, pat, j) <==> OccursAt(s[1..], pat, j - 1)
      {
        OccursShifted(s, pat, j);
      }
      match rest
      case None => None
      case Some(k) => Some(k + 1)
  }

  /** An occurrence at `j >= 1` is an occurrence one place earlier in the tail. */
  lemma OccursShifted(s: string, pat: string, j: int)
    requires |s| > 0 && 1 <= j
    ensures OccursAt(s, pat, j) <==> OccursAt(s[1..], pat, j - 1)
  {
    if j + |pat| <= |s| {
      var a := s[j..j + |pat|];
      var b := s[1..][j - 1..j - 1 + |pat|];
      assert |a| == |b|;
      assert forall k :: 0 <= k < |a| ==> a[k] == s[j + k] == b[k];
      assert a == b;
    }
  }

  /** `s.includes(pat)`. */
  predicate Includes(s: string, pat: string) {
    IndexOf(s, pat).Some?
  }

  /**
   * `s.split(sep)` for a non-empty separator: the pieces between the
   * non-overlapping occurrences of `sep`, found left to right.
   */
  function Split(s: string, sep: string): (parts: seq<string>)
    requires |sep| > 0
    ensures |parts| >= 1
    decreases |s|
  {
    match IndexOf(s, sep)
    case None => [s]
    case Some(i) => [s[..i]] + Split(s[i + |sep|..], sep)
  }

  /** `parts.join(sep)`. */
  function Join(parts: seq<string>, sep: string): string {
    if |parts| == 0 then ""
    else if |parts| == 1 then parts[0]
    else parts[0] + sep + Join(parts[1..], sep)
  }

  /** Joining a piece in front of at least one other adds the piece and a separator. */
  lemma JoinCons(x: string, tail: seq<string>, sep: string)
    requires |tail| >= 1
    ensures Join([x] + tail, sep) == x + sep + Join(tail, sep)
  {
    assert ([x] + tail)[1..] == tail;
  }

  /** A string is its text before an occurrence, the occurrence and the text after it. */
  lemma AroundOccurrence(s: string, pat: string, i: nat)
    requires OccursAt(s, pat, i)
    ensures s == s[..i] + pat + s[i + |pat|..]
  {
    assert s == s[..i] + s[i..i + |pat|] + s[i + |pat|..];
  }

  /** Joining the pieces of a split with the same separator gives back the string. */
  lemma {:induction false} JoinSplit(s: string, sep: string)
    requires |sep| > 0
    ensures Join(Split(s, sep), sep) == s
    decreases |s|
  {
    match IndexOf(s, sep)
    case None =>
    case Some(i) =>
      var rest := s[i + |sep|..];
      JoinSplit(rest, sep);
      JoinCons(s[..i], Split(rest, sep), sep);
      AroundOccurrence(s, sep, i);
  }

  /**
   * What `split(sep)[0]` and `split(sep).slice(1).join(sep)` pick out:
   * the text before the first occurrence of `sep` and the text after it,
   * or the whole string and nothing when `sep` does not occur.
   */
  lemma HeadAndRest(s: string, sep: string)
    requires |sep| > 0
    ensures IndexOf(s, sep).Some? ==>
      var i := IndexOf(s, sep).value;
      Split(s, sep)[0] == s[..i] && Join(Split(s, sep)[1..], sep) == s[i + |sep|..]
    ensures IndexOf(s, sep).None? ==>
      Split(s, sep)[0] == s && Join(Split(s, sep)[1..], sep) == ""
  {
    match IndexOf(s, sep)
    case None =>
    case Some(i) =>
      var rest := s[i + |sep|..];
      JoinSplit(rest, sep);
      var parts := Split(s, sep);
      assert parts == [s[..i]] + Split(rest, sep);
      assert parts[1..] == Split(rest, sep);
  }

  /** An occurrence inside a prefix of `s` is an occurrence in `s` at the same index. */
  lemma OccursInPrefix(s: string, pat: string, n: nat, j: int)
    requires n <= |s| && OccursAt(s[..n], pat, j)
    ensures OccursAt(s, pat, j)
  {
    assert s[..n][j..j + |pat|] == s[j..j + |pat|];
  }

  /** The text before the first occurrence of `pat` does not contain `pat`. */
  lemma BeforeFirstExcludes(s: string, pat: string)
    requires |pat| > 0 && IndexOf(s, pat).Some?
    ensures !Includes(s[..IndexOf(s, pat).value], pat)
  {
    var i := IndexOf(s, pat).value;
    var r := IndexOf(s[..i], pat);
    if r.Some? {
      OccursInPrefix(s, pat, i, r.value);
      assert false;
    }
  }

  /** An occurrence in `a + b` that lies wholly inside `a` or wholly inside `b`. */
  lemma OccursInParts(a: string, b: string, pat: string, j: int)
    requires OccursAt(a + b, pat, j)
    ensures j + |pat| <= |a| ==> OccursAt(a, pat, j)
    ensures j >= |a| ==> OccursAt(b, pat, j - |a|)
  {
    if j + |pat| <= |a| {
      assert (a + b)[j..j + |pat|] == a[j..j + |pat|];
    }
    if j >= |a| {
      assert (a + b)[j..j + |pat|] == b[j - |a|..j - |a| + |pat|];
    }
  }

  /** An occurrence in a part is an occurrence in the whole. */
  lemma OccursInWhole(a: string, b: string, pat: string, j: int)
    ensures OccursAt(a, pat, j) ==> OccursAt(a + b, pat, j)
    ensures OccursAt(b, pat, j) ==> OccursAt(a + b, pat, |a| + j)
  {
    if OccursAt(a, pat, j) {
      assert (a + b)[j..j + |pat|] == a[j..j + |pat|];
    }
    if OccursAt(b, pat, j) {
      assert (a + b)[|a| + j..|a| + j + |pat|] == b[j..j + |pat|];
    }
  }

  /** An occurrence that covers index `|a|` of `a + [c] + b` has `c` at the matching place. */
  lemma StraddleMeetsChar(a: string, c: char, b: string, pat: string, j: int)
    requires OccursAt(a + [c] + b, pat, j) && j <= |a| < j + |pat|
    ensures pat[|a| - j] == c
  {
    var s := a + [c] + b;
    assert s[j..j + |pat|][|a| - j] == s[|a|];
  }

  /**
   * A pattern that does not contain the character `c` occurs in
   * `a + [c] + b` exactly when it occurs in `a` or in `b`.
   */
  lemma {:induction false} IncludesAcross(a: string, c: char, b: string, pat: string)
    requires c !in pat
    ensures Includes(a + [c] + b, pat) <==> Includes(a, pat) || Includes(b, pat)
  {
    var s := a + [c] + b;
    assert s == a + ([c] + b);
    if Includes(s, pat) {
      var j := IndexOf(s, pat).value;
      if j + |pat| <= |a| {
        OccursInParts(a, [c] + b, pat, j);
      } else if |a| < j {
        OccursInParts(a + [c], b, pat, j);
      } else {
        // an occurrence over `c` would put `c` in the pattern
        StraddleMeetsChar(a, c, b, pat, j);
      }
    }
    if Includes(a, pat) {
      OccursInWhole(a, [c] + b, pat, IndexOf(a, pat).value);
    }
    if Includes(b, pat) {
      OccursInWhole(a + [c], b, pat, IndexOf(b, pat).value);
    }
  }

  /** An occurrence with none before it is the one `indexOf` finds. */
  lemma FirstOccurrence(s: string, pat: string, p: nat)
    requires OccursAt(s, pat, p)
    requires forall j :: 0 <= j < p ==> !OccursAt(s, pat, j)
    ensures IndexOf(s, pat) == Some(p)
  {
  }

  /** An occurrence begins with the pattern's first character. */
  lemma OccurrenceStartsWith(s: string, pat: string, j: int)
    requires OccursAt(s, pat, j) && |pat| > 0
    ensures s[j] == pat[0]
  {
    assert s[j..j + |pat|][0] == s[j];
  }

  /** Lower-casing is idempotent. */
  lemma LowerTwice(s: string)
    ensures ToLower(ToLower(s)) == ToLower(s)
  {
  }

  /** Lower-casing neither creates nor removes white space. */
  lemma BlankIgnoresCase(s: string)
    ensures Trim(ToLower(s)) == "" <==> Trim(s) == ""
  {
    var lower := ToLower(s);
    assert forall i :: 0 <= i < |s| ==> (IsJsSpace(lower[i]) <==> IsJsSpace(s[i]));
  }
}

=== FILE: upload.dfy ===
/**
 * The upload form's submit handler: validation, the four step indicators
 * (upload, process, db, report) driven through one `/process` request,
 * the result panel, and the cleanup in `catch` and `finally`.
 */
module Upload {
  import opened Wrappers
  import opened Text
  import opened LogLine

  /** The visual state of one step indicator (its `active`/`completed` classes). */
  datatype Mark = Inactive | Active | Completed

  const UploadStep: nat := 0
  const ProcessStep: nat := 1
  const DbStep: nat := 2
  const ReportStep: nat := 3
  const StepCount: nat := 4

  /** The four indicators, indexed by the step constants. */
  type Steps = seq<Mark>

  const AllInactive: Steps := [Inactive, Inactive, Inactive, Inactive]
  const AllCompleted: Steps := [Completed, Completed, Completed, Completed]

  /** One class change on one indicator. */
  datatype Event = Set(step: nat, mark: Mark)

  /** The changes an indicator may undergo: activation, completion, and losing activity in `catch`. */
  predicate Legal(from: Mark, to: Mark) {
    || (from == Inactive && to == Active)
    || (from == Active && to == Completed)
    || (from == Active && to == Inactive)
  }

  /** No step is active or completed before every earlier step is completed. */
  predicate InOrder(s: Steps) {
    && |s| == StepCount
    && forall i, j :: 0 <= i < j < |s| && s[j] != Inactive ==> s[i] == Completed
  }

  predicate NoneActive(s: Steps) {
    forall i :: 0 <= i < |s| ==> s[i] != Active
  }

  function Apply(s: Steps, e: Event): (r: Steps)
    ensures |r| == |s|
  {
    if e.step < |s| then s[e.step := e.mark] else s
  }

  /** The indicators after a sequence of changes. */
  function Run(s: Steps, events: seq<Event>): (r: Steps)
    ensures |r| == |s|
    decreases |events|
  {
    if |events| == 0 then s else Run(Apply(s, events[0]), events[1..])
  }

  /** Every change is a legal change of an existing indicator. */
  predicate Lawful(s: Steps, events: seq<Event>)
    decreases |events|
  {
    || |events| == 0
    || (&& events[0].step < |s|
        && Legal(s[events[0].step], events[0].mark)
        && Lawful(Apply(s, events[0]), events[1..]))
  }

  /**
   * Every state the changes pass through is in order. Legal changes alone
   * do not ensure this (activating the report step first is legal).
   */
  predicate Ordered(s: Steps, events: seq<Event>)
    decreases |events|
  {
    || |events| == 0
    || (InOrder(Apply(s, events[0])) && Ordered(Apply(s, events[0]), events[1..]))
  }

  /** The indicators once every active one has lost its `active` class. */
  function Settle(s: Steps): (r: Steps)
    ensures |r| == |s| && NoneActive(r)
    ensures forall i :: 0 <= i < |s| ==> (r[i] == Completed <==> s[i] == Completed)
  {
    seq(|s|, i requires 0 <= i < |s| => if s[i] == Active then Inactive else s[i])
  }

  lemma {:induction false} RunAppend(s: Steps, a: seq<Event>, b: seq<Event>)
    ensures Run(s, a + b) == Run(Run(s, a), b)
    decreases |a|
  {
    if |a| > 0 {
      assert (a + b)[1..] == a[1..] + b;
      RunAppend(Apply(s, a[0]), a[1..], b);
    } else {
      assert a + b == b;
    }
  }

  lemma {:induction false} LawfulAppend(s: Steps, a: seq<Event>, b: seq<Event>)
    requires Lawful(s, a) && Lawful(Run(s, a), b)
    ensures Lawful(s, a + b)
    decreases |a|
  {
    if |a| > 0 {
      assert (a + b)[1..] == a[1..] + b;
      LawfulAppend(Apply(s, a[0]), a[1..], b);
    } else {
      assert a + b == b;
    }
  }

  lemma {:induction false} OrderedAppend(s: Steps, a: seq<Event>, b: seq<Event>)
    requires Ordered(s, a) && Ordered(Run(s, a), b)
    ensures Ordered(s, a + b)
    decreases |a|
  {
    if |a| > 0 {
      assert (a + b)[1..] == a[1..] + b;
      OrderedAppend(Apply(s, a[0]), a[1..], b);
    } else {
      assert a + b == b;
    }
  }

  /** Ordered changes from ordered indicators end in order. */
  lemma {:induction false} OrderedEndsInOrder(s: Steps, events: seq<Event>)
    requires InOrder(s) && Ordered(s, events)
    ensures InOrder(Run(s, events))
    decreases |events|
  {
    if |events| > 0 {
      OrderedEndsInOrder(Apply(s, events[0]), events[1..]);
    }
  }

  /** Activating the report step first is a legal change that breaks the order. */
  lemma LegalIsNotOrdered()
    ensures Lawful(AllInactive, [Set(ReportStep, Active)])
    ensures !Ordered(AllInactive, [Set(ReportStep, Active)])
  {
    var after := Apply(AllInactive, Set(ReportStep, Active));
    assert after[ReportStep] == Active && after[UploadStep] == Inactive;
  }

  /** A completed indicator stays completed under lawful changes. */
  lemma {:induction false} LawfulKeepsCompleted(s: Steps, events: seq<Event>, i: int)
    requires Lawful(s, events) && 0 <= i < |s| && s[i] == Completed
    ensures Run(s, events)[i] == Completed
    decreases |events|
  {
    if |events| > 0 {
      LawfulKeepsCompleted(Apply(s, events[0]), events[1..], i);
    }
  }

  /** The results block of a successful `/process` reply. */
  datatype Results = Results(
    date: string,
    totalRecords: int,
    newRecords: int,
    updatedRecords: int,
    dailyTotalSales: int,
    dailyTotalPurchases: int,
    fileName: string)

  /**
   * How the `/process` request settled: the fetch was rejected, the body
   * was not JSON, or a JSON body with its `error` (empty when absent or
   * empty), `results` and `logs` fields.
   */
  datatype Reply =
    | Rejected(reason: string)
    | Unparsable(reason: string)
    | Body(error: string, results: Option<Results>, logs: Option<seq<string>>)

  /** The form: the files chosen in the file input and the date input's value. */
  datatype Form = Form(files: seq<string>, date: string)

  datatype Tone = SuccessTone | ErrorTone

  /** The status message: shown or hidden, its text, and the classes it has collected. */
  datatype Status = Status(visible: bool, text: string, tones: set<Tone>)

  /** The part of the page the handler touches. */
  datatype Ui = Ui(
    steps: Steps,
    buttonEnabled: bool,
    summaryVisible: bool,
    summary: Option<Results>,
    status: Status,
    download: Option<string>)

  datatype ToastKind = SuccessToast | ErrorToast

  /**
   * What the handler does beyond the page state: a toast, a line it logs
   * itself (`[TAG] <time> - text`), a server log line passed through, or
   * the `/process` request.
   */
  datatype Effect =
    | Toast(kind: ToastKind, text: string)
    | Log(severity: Severity, text: string)
    | ServerLog(line: string)
    | Post(file: string, date: string)

  /** The outcome of one submission. */
  datatype Reaction = Reaction(events: seq<Event>, ui: Ui, effects: seq<Effect>)

  /** The state of the `try` block when it finishes or throws. */
  datatype Trial = Trial(events: seq<Event>, ui: Ui, effects: seq<Effect>, thrown: Option<string>)

  const ValidationText := "Please select a file and date."
  const SuccessText := "Processing Completed Successfully!"
  const SuccessToastText := "Data processed successfully!"
  /** The `TypeError` messages (V8 wording) for a reply without `results` or without `logs`. */
  const ResultsMissing := "Cannot read properties of undefined (reading 'date')"
  const LogsMissing := "Cannot read properties of undefined (reading 'forEach')"

  /** The reply the handler treats as a full success. */
  predicate Succeeds(reply: Reply) {
    reply.Body? && reply.error == "" && reply.results.Some? && reply.logs.Some?
  }

  /** The message of the error the `try` block throws for `reply`. */
  function Thrown(reply: Reply): Option<string> {
    match reply
    case Rejected(m) => Some(m)
    case Unparsable(m) => Some(m)
    case Body(e, results, logs) =>
      if e != "" then Some(e)
      else if results.None? then Some(ResultsMissing)
      else if logs.None? then Some(LogsMissing)
      else None
  }

  function ServerLogs(lines: seq<string>): (effects: seq<Effect>)
    ensures |effects| == |lines| && forall i :: 0 <= i < |lines| ==> effects[i] == ServerLog(lines[i])
  {
    if |lines| == 0 then [] else [ServerLog(lines[0])] + ServerLogs(lines[1..])
  }

  /** The success path's indicator changes: each step activated, then completed, in step order. */
  const InSequence: seq<Event> := [
    Set(UploadStep, Active), Set(UploadStep, Completed),
    Set(ProcessStep, Active), Set(ProcessStep, Completed),
    Set(DbStep, Active), Set(DbStep, Completed),
    Set(ReportStep, Active), Set(ReportStep, Completed)]

  /**
   * The indicators after the first `k` changes of the success path: the
   * steps before `k / 2` completed, step `k / 2` active when `k` is odd.
   */
  function Progress(k: nat): (s: Steps)
    ensures |s| == StepCount
  {
    seq(StepCount, i requires 0 <= i < StepCount =>
      if 2 * i + 2 <= k then Completed else if 2 * i + 1 == k then Active else Inactive)
  }

  /** The `k`-th change of the success path. */
  lemma InSequenceAt(k: nat)
    requires k < |InSequence|
    ensures InSequence[k] == Set(k / 2, if k % 2 == 0 then Active else Completed)
  {
  }

  /** Every prefix of the success path is lawful and ends at `Progress` of its length. */
  lemma {:induction false} InSequencePrefix(k: nat)
    requires k <= |InSequence|
    ensures Lawful(AllInactive, InSequence[..k]) && Ordered(AllInactive, InSequence[..k])
    ensures Run(AllInactive, InSequence[..k]) == Progress(k)
  {
    if k == 0 {
      assert Progress(0) == AllInactive;
    } else {
      InSequencePrefix(k - 1);
      var e := InSequence[k - 1];
      InSequenceAt(k - 1);
      assert InSequence[..k] == InSequence[..k - 1] + [e];
      var before := Progress(k - 1);
      assert Apply(before, e) == Progress(k);
      assert Lawful(before, [e]);
      assert InOrder(Progress(k));
      assert Ordered(before, [e]);
      LawfulAppend(AllInactive, InSequence[..k - 1], [e]);
      OrderedAppend(AllInactive, InSequence[..k - 1], [e]);
      RunAppend(AllInactive, InSequence[..k - 1], [e]);
    }
  }

  /** How many indicator changes the `try` block makes before it ends for `reply`. */
  function Stage(reply: Reply): nat {
    match reply
    case Rejected(_) => 1
    case Unparsable(_) => 3
    case Body(error, _, _) => if error != "" then 4 else 8
  }

  lemma RequestsAppend(a: seq<Effect>, b: seq<Effect>)
    ensures Requests(a + b) == Requests(a) + Requests(b)
  {
    if |a| > 0 {
      assert (a + b)[1..] == a[1..] + b;
      RequestsAppend(a[1..], b);
    } else {
      assert a + b == b;
    }
  }

  /** Effects without a `Post` make no request. */
  lemma {:induction false} NoPostNoRequest(effects: seq<Effect>)
    requires forall i :: 0 <= i < |effects| ==> !effects[i].Post?
    ensures Requests(effects) == 0
  {
    if |effects| > 0 {
      NoPostNoRequest(effects[1..]);
    }
  }

  lemma ServerLogsRequestNothing(lines: seq<string>)
    ensures Requests(ServerLogs(lines)) == 0
  {
    NoPostNoRequest(ServerLogs(lines));
  }

  /**
   * What the `try` block logs and sends when nothing throws, before the
   * server's own lines: the upload notice, the request, and the notices
   * for processing, the database and the report.
   */
  function Preamble(form: Form): seq<Effect>
    requires |form.files| > 0
  {
    [Log(Info, "Starting file upload..."), Post(form.files[0], form.date), Log(Info, "Processing data..."),
     Log(Info, "Updating database..."), Log(Info, "Generating report...")]
  }

  /** How much of the preamble happens before the `try` block ends for `reply`. */
  function Announced(reply: Reply): nat {
    match reply
    case Rejected(_) => 2
    case Unparsable(_) => 3
    case Body(error, _, _) => if error != "" then 3 else 5
  }

  /** Lines 129-144: the result panel, the download and the success status, once `results` has been read. */
  function ShowResults(start: Ui, reply: Reply): (u: Ui)
    ensures u.steps == start.steps && u.buttonEnabled == start.buttonEnabled
  {
    if reply.Body? && reply.error == "" && reply.results.Some? then
      start.(
        summaryVisible := true,
        summary := reply.results,
        download := Some(reply.results.value.fileName),
        status := Status(true, SuccessText, start.status.tones + {SuccessTone}))
    else start
  }

  /** Every cut of the preamble that reaches the `Post` holds exactly one request. */
  lemma PreambleRequests(form: Form)
    requires |form.files| > 0
    ensures Requests(Preamble(form)[..2]) == 1 && Requests(Preamble(form)[..3]) == 1
    ensures Requests(Preamble(form)) == 1 && Preamble(form)[..5] == Preamble(form)
  {
    var requested := [Log(Info, "Starting file upload..."), Post(form.files[0], form.date)];
    var parsed := requested + [Log(Info, "Processing data...")];
    assert Preamble(form)[..2] == requested && Preamble(form)[..3] == parsed;
    assert Requests(requested) == 1 by {
      var post := [Post(form.files[0], form.date)];
      assert Requests(post) == 1 by {
        assert post[1..] == [];
      }
      assert requested[1..] == post;
    }
    RequestsAppend(requested, [Log(Info, "Processing data...")]);
    RequestsAppend(parsed, [Log(Info, "Updating database..."), Log(Info, "Generating report...")]);
    assert Preamble(form) == parsed + [Log(Info, "Updating database..."), Log(Info, "Generating report...")];
  }

  /** The four stages of the `try` block, cut short where `reply` makes it throw. */
  function Attempt(start: Ui, form: Form, reply: Reply): (t: Trial)
    requires |form.files| > 0
    ensures t.events == InSequence[..Stage(reply)]
    ensures Lawful(AllInactive, t.events) && Ordered(AllInactive, t.events)
    ensures Run(AllInactive, t.events) == Progress(Stage(reply))
    ensures t.thrown == Thrown(reply)
    ensures Requests(t.effects) == 1
    ensures !Succeeds(reply) ==> t.effects == Preamble(form)[..Announced(reply)]
    // the results are shown once they have been read, whatever happens after
    ensures reply.Body? && reply.error == "" && reply.results.Some? ==>
      t.ui == start.(
        summaryVisible := true,
        summary := reply.results,
        download := Some(reply.results.value.fileName),
        status := Status(true, SuccessText, start.status.tones + {SuccessTone}))
    ensures !(reply.Body? && reply.error == "" && reply.results.Some?) ==> t.ui == start
    ensures Succeeds(reply) ==>
      t.effects == Preamble(form) + ServerLogs(reply.logs.value) + [Toast(SuccessToast, SuccessToastText)]
  {
    InSequencePrefix(Stage(reply));
    PreambleRequests(form);
    var requested := Preamble(form)[..2];
    var parsed := Preamble(form)[..3];
    var reported := Preamble(form);
    var shown := ShowResults(start, reply);
    match reply
    case Rejected(m) => Trial(InSequence[..1], shown, requested, Some(m))
    case Unparsable(m) => Trial(InSequence[..3], shown, parsed, Some(m))
    case Body(error, results, logs) =>
      if error != "" then Trial(InSequence[..4], shown, parsed, Some(error))
      else
        match results
        case None => Trial(InSequence, shown, reported, Some(ResultsMissing))
        case Some(res) =>
          match logs
          case None => Trial(InSequence, shown, reported, Some(LogsMissing))
          case Some(lines) =>
            var done := reported + ServerLogs(lines) + [Toast(SuccessToast, SuccessToastText)];
            ServerLogsRequestNothing(lines);
            RequestsAppend(reported, ServerLogs(lines));
            RequestsAppend(reported + ServerLogs(lines), [Toast(SuccessToast, SuccessToastText)]);
            Trial(InSequence, shown, done, None)
  }

  /** The `catch` block's indicator changes: every active step loses its `active` class. */
  function Deactivate(s: Steps, from: nat): seq<Event>
    decreases |s| - from
  {
    if from >= |s| then []
    else if s[from] == Active then [Set(from, Inactive)] + Deactivate(s, from + 1)
    else Deactivate(s, from + 1)
  }

  /** Deactivating the one active indicator of ordered indicators keeps them in order. */
  lemma DeactivateInOrder(u: Steps, j: nat)
    requires InOrder(u) && j < |u| && u[j] == Active
    ensures InOrder(u[j := Inactive])
  {
  }

  /**
   * The `catch` loop over indicators `from` onward, read from `s`, applied
   * to indicators `u` that agree with `s` there and have no active one
   * before `from`: each change is lawful, keeps them in order, and the
   * result is `Settle(u)`.
   */
  lemma {:induction false} DeactivateSettles(s: Steps, u: Steps, from: nat)
    requires |u| == |s| && from <= |s| && InOrder(u)
    requires forall i :: from <= i < |s| ==> u[i] == s[i]
    requires forall i :: 0 <= i < from ==> u[i] != Active
    ensures Lawful(u, Deactivate(s, from)) && Ordered(u, Deactivate(s, from))
    ensures Run(u, Deactivate(s, from)) == Settle(u)
    decreases |s| - from
  {
    if from < |s| {
      if s[from] == Active {
        var u1 := u[from := Inactive];
        DeactivateInOrder(u, from);
        DeactivateSettles(s, u1, from + 1);
        assert Settle(u1) == Settle(u);
        var evs := [Set(from, Inactive)] + Deactivate(s, from + 1);
        assert evs[1..] == Deactivate(s, from + 1);
        assert Apply(u, evs[0]) == u1;
      } else {
        DeactivateSettles(s, u, from + 1);
      }
    } else {
      assert Settle(u) == u;
    }
  }

  /** The `catch` block: indicators deactivated, the error shown, logged and toasted. */
  function Recover(t: Trial, message: string): (r: Trial)
    requires Lawful(AllInactive, t.events) && Ordered(AllInactive, t.events)
    ensures Lawful(AllInactive, r.events) && Ordered(AllInactive, r.events)
    ensures Run(AllInactive, r.events) == Settle(Run(AllInactive, t.events))
    ensures r.ui == t.ui.(status := Status(true, "Error: " + message, t.ui.status.tones + {ErrorTone}))
    ensures r.effects == t.effects + [Log(Error, message), Toast(ErrorToast, "Error: " + message)]
    ensures Requests(r.effects) == Requests(t.effects)
    ensures r.thrown.None?
  {
    var tail := [Log(Error, message), Toast(ErrorToast, "Error: " + message)];
    NoPostNoRequest(tail);
    RequestsAppend(t.effects, tail);
    var reached := Run(AllInactive, t.events);
    OrderedEndsInOrder(AllInactive, t.events);
    DeactivateSettles(reached, reached, 0);
    LawfulAppend(AllInactive, t.events, Deactivate(reached, 0));
    OrderedAppend(AllInactive, t.events, Deactivate(reached, 0));
    RunAppend(AllInactive, t.events, Deactivate(reached, 0));
    var reverts := Deactivate(Run(AllInactive, t.events), 0);
    var text := "Error: " + message;
    Trial(t.events + reverts,
          t.ui.(status := Status(true, text, t.ui.status.tones + {ErrorTone})),
          t.effects + [Log(Error, message), Toast(ErrorToast, text)],
          None)
  }

  /** The number of `/process` requests among the effects. */
  function Requests(effects: seq<Effect>): nat {
    if |effects| == 0 then 0 else (if effects[0].Post? then 1 else 0) + Requests(effects[1..])
  }

  /** The form passes the handler's check: a file is chosen and the date is not empty. */
  predicate Complete(form: Form) {
    |form.files| > 0 && form.date != ""
  }

  /** The submit handler, given the page, the form and how the request settles. */
  function Submit(ui: Ui, form: Form, reply: Reply): (r: Reaction)
    // an incomplete form: one error toast, no request, nothing else changes
    ensures !Complete(form) ==>
      && r.ui == ui && r.events == [] && Requests(r.effects) == 0
      && r.effects == [Toast(ErrorToast, ValidationText)]
    // a complete form: one request, lawful ordered indicator changes, the button re-enabled
    ensures Complete(form) ==>
      && Requests(r.effects) == 1
      && r.ui.buttonEnabled
      && Lawful(AllInactive, r.events)
      && Ordered(AllInactive, r.events)
      && r.ui.steps == Run(AllInactive, r.events)
      && NoneActive(r.ui.steps)
      && |r.events| >= Stage(reply)
      && r.events[..Stage(reply)] == InSequence[..Stage(reply)]
    // full success: every step activated then completed in order, results shown
    ensures Complete(form) && Succeeds(reply) ==>
      && r.events == InSequence
      && r.ui.steps == AllCompleted
      && r.ui.summaryVisible && r.ui.summary == reply.results
      && r.ui.download == Some(reply.results.value.fileName)
      && r.ui.status == Status(true, SuccessText, ui.status.tones + {SuccessTone})
      && r.effects == Preamble(form) + ServerLogs(reply.logs.value) + [Toast(SuccessToast, SuccessToastText)]
    // any failure: the error shown, logged and toasted, completed steps kept
    ensures Complete(form) && !Succeeds(reply) ==>
      var m := Thrown(reply).value;
      && r.ui.status.visible && r.ui.status.text == "Error: " + m && ErrorTone in r.ui.status.tones
      && r.effects == Preamble(form)[..Announced(reply)] + [Log(Error, m), Toast(ErrorToast, "Error: " + m)]
      && (forall i :: 0 <= i < |r.effects| - 2 ==>
            !r.effects[i].Toast? && !(r.effects[i].Log? && r.effects[i].severity == Error))
      && r.ui.steps == Settle(Progress(Stage(reply)))
    // a failure before the results are read leaves the result panel hidden and the download alone
    ensures Complete(form) && (reply.Rejected? || reply.Unparsable? || reply.error != "" || reply.results.None?) ==>
      !r.ui.summaryVisible && r.ui.download == ui.download
    // a failure after the results are shown (no `logs`) leaves them shown, with both status classes
    ensures Complete(form) && reply.Body? && reply.error == "" && reply.results.Some? && reply.logs.None? ==>
      && r.ui.summaryVisible && r.ui.summary == reply.results
      && r.ui.download == Some(reply.results.value.fileName)
      && r.ui.status.tones == ui.status.tones + {SuccessTone, ErrorTone}
  {
    if |form.files| == 0 || form.date == "" then
      Reaction([], ui, [Toast(ErrorToast, ValidationText)])
    else
      var start := ui.(
        steps := AllInactive,
        buttonEnabled := false,
        summaryVisible := false,
        status := ui.status.(visible := false));
      var tried := Attempt(start, form, reply);
      ThrownUnlessSucceeds(reply);
      if tried.thrown.None? then
        Reaction(tried.events,
                 tried.ui.(steps := Run(AllInactive, tried.events), buttonEnabled := true),
                 tried.effects)
      else
        var settled := Recover(tried, tried.thrown.value);
        PreambleQuiet(form, Announced(reply), tried.thrown.value);
        Reaction(settled.events,
                 settled.ui.(steps := Run(AllInactive, settled.events), buttonEnabled := true),
                 settled.effects)
  }

  /** The `try` block throws exactly when the reply is not a full success. */
  lemma ThrownUnlessSucceeds(reply: Reply)
    ensures Thrown(reply).None? <==> Succeeds(reply)
  {
  }

  /** Before the `catch` block's error line and toast, a failure's effects hold no toast and no error line. */
  lemma PreambleQuiet(form: Form, n: nat, m: string)
    requires |form.files| > 0 && n <= 5
    ensures var effects := Preamble(form)[..n] + [Log(Error, m), Toast(ErrorToast, "Error: " + m)];
      && |effects| == n + 2
      && forall i :: 0 <= i < n ==> !effects[i].Toast? && !(effects[i].Log? && effects[i].severity == Error)
  {
    var effects := Preamble(form)[..n] + [Log(Error, m), Toast(ErrorToast, "Error: " + m)];
    forall i | 0 <= i < n
      ensures !effects[i].Toast? && !(effects[i].Log? && effects[i].severity == Error)
    {
      assert effects[i] == Preamble(form)[i];
    }
  }

  /**
   * Where each kind of failure leaves the indicators: a rejected fetch
   * leaves none completed, an unreadable body leaves upload completed, an
   * `error` field leaves upload and process completed, and an error after
   * the last step leaves all four completed.
   */
  lemma FailureIndicators(ui: Ui, form: Form, reply: Reply)
    requires Complete(form) && !Succeeds(reply)
    ensures reply.Rejected? ==> Submit(ui, form, reply).ui.steps == AllInactive
    ensures reply.Unparsable? ==> Submit(ui, form, reply).ui.steps == [Completed, Inactive, Inactive, Inactive]
    ensures reply.Body? && reply.error != "" ==>
      Submit(ui, form, reply).ui.steps == [Completed, Completed, Inactive, Inactive]
    ensures reply.Body? && reply.error == "" ==> Submit(ui, form, reply).ui.steps == AllCompleted
  {
    var r := Submit(ui, form, reply);
    assert r.ui.steps == Settle(Progress(Stage(reply)));
    SettledAt(Stage(reply));
  }

  /** The settled indicators after `k` changes: the steps before `k / 2` completed, the rest inactive. */
  lemma SettledAt(k: nat)
    ensures Settle(Progress(k)) == [
      if 2 <= k then Completed else Inactive, if 4 <= k then Completed else Inactive,
      if 6 <= k then Completed else Inactive, if 8 <= k then Completed else Inactive]
  {
  }

  /**
   * The line the `catch` block logs, stamped with a time that holds no tag
   * and no separator, is read back by the log panel as an error whose
   * message span is exactly the error message.
   */
  lemma FailureLogReadsBack(ui: Ui, form: Form, reply: Reply, timestamp: string)
    requires Complete(form) && !Succeeds(reply)
    requires !Includes(timestamp, ErrorTag) && !Includes(timestamp, WarningTag)
    requires !Includes(" " + timestamp + " -", Separator)
    ensures
      var effects := Submit(ui, form, reply).effects;
      var m := Thrown(reply).value;
      && effects[|effects| - 2] == Log(Error, m)
      && Parse(Format(Error, timestamp, m)) == Entry(ErrorTag + " " + timestamp, Error, m)
  {
    var m := Thrown(reply).value;
    FormatClassify(Error, timestamp, m);
    FormatParse(Error, timestamp, m);
  }
}

=== FILE: wrappers.dfy ===
/** The optional value used wherever the script reads a property that may be absent. */
module Wrappers {

  datatype Option<T> = None | Some(value: T) {

    /** The value, or `default` when absent (the script's `x || default`). */
    function GetOr(default: T): T {
      match this
      case Some(v) => v
      case None => default
    }
  }
}
